=== FILE: README.md ===
# EBS volume service — a Dafny model

This project models the decision logic of the EBS volume service in
`ebs/ebs_service.go`. The service creates, attaches, detaches and snapshots
Amazon EBS volumes for the EC2 instance it runs on. Most of the Go file builds
parameters for AWS SDK calls. The model keeps the rules beneath those calls:

- the byte-to-GB rounding and the volume-type check of `CreateVolume`;
- the four polling loops `waitForVolumeCreating`, `waitForVolumeAttaching`,
  `waitForVolumeDetaching` and `waitForSnapshotComplete`;
- the device matcher `getAttachedDev`;
- the slot allocator `FindFreeDeviceForAttach` and its input builder `getInstanceDevList`;
- `ListSingleVolume`'s exactly-one check;
- the error normaliser `parseAwsError`;
- the call order of `CreateVolume`, `AttachVolume`, `DetachVolume` and `CreateSnapshot`.

Every remote reply, every `/sys/block` listing and every sector count is an
input. A Go loop that polls without bound is driven by a finite sequence of
fetch results. The model counts sleeps instead of taking them. If every
observed fetch says "keep waiting", the run ends as `StillWaiting`. Go's map
iteration order is an explicit `order` argument, and the properties are proved
for every order.

Modules, one per component:

| module | file | models |
|---|---|---|
| `Wrappers` | wrappers.dfy | `Option`, `Result`, `Outcome` (Go's nil / error pairs) |
| `SetFacts` | set_facts.dfy | the subset-cardinality fact shared by the matcher and the allocator |
| `Ec2Types` | ec2_types.dfy | volume, attachment and snapshot records and states; `int64`; the error tags |
| `AwsErrors` | aws_errors.dfy | `parseAwsError` |
| `VolumeSize` | volume_size.dfy | Go's truncating `/` and `%`, `ebsSize`, the wrapping `devSize *= 512` |
| `Polling` | polling.dfy | the fetch/sleep loop shared by the four pollers |
| `Pollers` | pollers.dfy | the four `waitFor*` functions as classifiers of fetch results |
| `DeviceMatcher` | device_matcher.dfy | `getAttachedDev` |
| `SlotAllocator` | slot_allocator.dfy | `getInstanceDevList`, `FindFreeDeviceForAttach` |
| `VolumeManager` | volume_manager.dfy | `ListSingleVolume`, `CreateVolume`, `AttachVolume`, `DetachVolume`, `CreateSnapshot` |
| `Scenarios` | scenarios.dfy | concrete runs: two sleeps before success, the matcher's three outcomes, create and attach end to end |

The orchestrating operations return a `Run`. A `Run` lists the steps in
order and holds the outcome. The steps are remote requests, `/sys/block`
directory listings (`ListLocalDevices`), and polls with their sleep counts
(`Polled`). The steps are coarse. The matcher's per-device reads of
`/sys/block/<dev>/size` are folded into the listing that follows the attach.
A poller's DescribeVolumes or DescribeSnapshots calls are folded into its
`Polled` step. This makes ordering claims
statable, for example "the device listing comes before the attach request".

## Model

| member | source | states |
|---|---|---|
| AwsErrors.Normalize | ebs/ebs_service.go:37-44 | An SDK error becomes a described error with the same code, message, cause and request data. Any other error is returned unchanged. The result is never a raw SDK error. |
| AwsErrors.ParseAwsError | ebs/ebs_service.go:33-45 | nil maps to nil and only nil maps to nil. A non-nil error maps to its normalised form. |
| AwsErrors.ParseAwsErrorIdempotent | ebs/ebs_service.go:406-413 | Normalising twice equals normalising once. So CreateSnapshot's second `parseAwsError` on the poller's already-normalised error changes nothing. |
| AwsErrors.NormalizePreservesProviderDetail | ebs/ebs_service.go:37-42 | A provider error's code, message and status/request id survive normalisation. |
| VolumeSize.TruncDiv | ebs/ebs_service.go:102-103 | Go's `/` truncates toward zero: the remainder has the dividend's sign and is smaller than the divisor in magnitude. |
| VolumeSize.TruncMod | ebs/ebs_service.go:103 | Go's `%` takes the dividend's sign: for a non-negative dividend it lies in [0, b), for a negative one in (-b, 0]. |
| VolumeSize.EbsSizeGB | ebs/ebs_service.go:100-105 | For every int64 size, `ebsSize` is the least integer with `ebsSize * GB >= size`. This is the ceiling, negative sizes included. |
| VolumeSize.ExactMultipleRoundsToItself | ebs/ebs_service.go:100-105 | `k * GB` bytes ask for exactly `k` GB. |
| VolumeSize.RemainderAddsOne | ebs/ebs_service.go:100-105 | `k * GB + r` bytes with `0 < r < GB` ask for `k + 1` GB. |
| VolumeSize.Wrap64 | ebs/ebs_service.go:225 | int64 multiplication wraps modulo 2^64 and is exact inside the int64 range. |
| VolumeSize.SectorBytes | ebs/ebs_service.go:225 | A device's byte size is sectors × 512, exact for any sector count in [-2^54, 2^54), and otherwise congruent to it modulo 2^64. |
| Polling.RunPoll | ebs/ebs_service.go:86-93 | The loop sleeps once per fetch that says "continue" and settles on the first fetch that says "stop", with that fetch's outcome. If no fetch says "stop", it is still waiting after one sleep per fetch. |
| Polling.PollsAsUnique | ebs/ebs_service.go:86-93 | That characterisation fixes the run completely: two runs that fit it are equal. |
| Polling.SettledIgnoresLaterFetches | ebs/ebs_service.go:86-93 | Polling stops at the settling fetch: appending more observations does not change a settled run. |
| Polling.WaitingResumes | ebs/ebs_service.go:86-93 | A run that is still waiting continues on later observations as if it had started on them, its sleeps added on. |
| Pollers.WaitForVolumeCreating | ebs/ebs_service.go:81-98 | Every fetch before the settling one shows `creating`, and the settling one does not. The run succeeds iff that fetch shows `available`. A fetch error is returned as is. Any other state fails naming the fetched volume id and state. |
| Pollers.WaitForVolumeAttaching | ebs/ebs_service.go:164-193 | Every fetch before the settling one shows an `attaching` first attachment. The run succeeds iff the settling fetch shows `attached`. A fetch with no attachment fails, at any point. Another state fails naming it. A fetch error is returned as is. |
| Pollers.WaitForVolumeDetaching | ebs/ebs_service.go:323-350 | The loop polls while the attachment is `detaching`. It fails only on a fetch error, or when the first fetch shows no attachment. A later vanished attachment, or any non-`detaching` state, is a success with no terminal check. |
| Pollers.WaitForSnapshotComplete | ebs/ebs_service.go:365-399 | A snapshot that is not `pending` succeeds at once with no sleep. A pending one sleeps before each fetch while fetches show `pending`. Only a fetch error, normalised, makes it fail. Any other settling state succeeds. |
| DeviceMatcher.MatchLoop | ebs/ebs_service.go:213-233 | The loop returns only a non-empty device: either the match it carries or a later device of the listing that is new and of the expected size. |
| DeviceMatcher.GetAttachedDev | ebs/ebs_service.go:207-238 | A listing error is returned as is. A returned device is in the new listing, is absent from the old one, is readable and has exactly the expected byte size. |
| DeviceMatcher.MatchLoopAfterFound | ebs/ebs_service.go:226-236 | On a listing with no repeats whose new devices are all readable: once a match is held, the loop returns it if no other match follows. Otherwise it reports an ambiguity between that match and a later one. |
| DeviceMatcher.MatchLoopExact | ebs/ebs_service.go:213-237 | With every new device readable, the result is a success, not-found or an ambiguity. A success means the matches are exactly that device. Not-found means there are none. An ambiguity names two different matches. |
| DeviceMatcher.GetAttachedDevExact | ebs/ebs_service.go:207-238 | For any visiting order: it returns `d` iff `d` is the only new device of the expected size. It reports not-found iff there is none, and ambiguity iff there are two or more. |
| DeviceMatcher.UnreadableNewDeviceFails | ebs/ebs_service.go:217-224 | A new device whose size cannot be read or parsed never lets the matcher succeed or report not-found. |
| SlotAllocator.PoolFollowsLetters | ebs/ebs_service.go:268-271 | The pool is `/dev/sd` followed by each letter of `fghijklmnop`, in order. |
| SlotAllocator.PoolHasElevenDistinctPaths | ebs/ebs_service.go:266-271 | The pool holds eleven different paths. |
| SlotAllocator.PoolOrderVisitsEachOnce | ebs/ebs_service.go:282-286 | Ranging over the candidate map visits each pool path exactly once. Any admitted visiting order is a permutation of the pool with no repeats. |
| SlotAllocator.InstanceDevices | ebs/ebs_service.go:251-262 | A device is in use iff it is the first attachment's device of some listed volume. Volumes with no attachment add nothing, and later attachments are not read. A listing error is normalised. |
| SlotAllocator.FirstFree | ebs/ebs_service.go:282-286 | The loop returns a visited candidate that is not in use. It returns nothing iff every candidate is in use. |
| SlotAllocator.FindFreeDeviceForAttach | ebs/ebs_service.go:265-288 | For every visiting order, the result is a pool path that no attached volume uses. In-use paths outside the pool are ignored. It fails iff all pool paths are in use. |
| SlotAllocator.LastFreeSlotIsChosen | ebs/ebs_service.go:276-286 | When all pool paths but one are in use, that one is returned for every visiting order. |
| VolumeManager.ListSingleVolume | ebs/ebs_service.go:148-162 | The call succeeds iff the reply holds exactly one volume, and returns that volume. A provider error is normalised. Zero or several volumes give "cannot find volume". |
| VolumeManager.VolumeFetchErrors | ebs/ebs_service.go:154-160 | A volume fetch fails only with a normalised provider error or with "cannot find volume". |
| VolumeManager.CreateVolume | ebs/ebs_service.go:100-138 | An unknown type fails with no remote call. Otherwise the request asks for the ceiling size in GB and sets the snapshot and type only when non-empty. The result is the new id iff the poll succeeds. If the poll fails, the volume is deleted and the result is a create error naming size and snapshot. A delete happens only in that case. |
| VolumeManager.CreateIgnoresDeleteOutcome | ebs/ebs_service.go:127-135 | The compensating delete's reply never changes CreateVolume's result. |
| VolumeManager.AttachVolume | ebs/ebs_service.go:290-321 | Each branch's steps and outcome are given exactly. An allocation error is returned as is, after the instance's volumes are described. A failed `/sys/block` listing is returned as is, before any attach request. An attach-request error is normalised. The poller's error is returned as is. Still waiting gives no outcome. Once the poll has seen `attached`, the answer is the matcher's. A success is a device that is new since the listing and has exactly the volume's size. |
| VolumeManager.AttachRequestsFreeSlotAfterListing | ebs/ebs_service.go:291-309 | The attach request is the third step and happens at most once. It follows the describe and the `/sys/block` listing, and it uses a pool path that no volume of the instance uses. |
| VolumeManager.AttachSucceedsOnlyAfterAttached | ebs/ebs_service.go:312-320 | A success needs allocation to have succeeded and the poller to have seen `attached`. All five steps have then been taken, the last being the second listing. |
| VolumeManager.DetachVolume | ebs/ebs_service.go:352-363 | The detach request comes first. A request error is normalised and ends the run. Otherwise the steps are the request and one poll of `waitForVolumeDetaching`. There is no outcome iff that poll is still waiting. Otherwise the poll's verdict is the result: success on pass, and the poll's error on failure. |
| VolumeManager.DetachOutcomeByFetch | ebs/ebs_service.go:323-363 | A detach succeeds iff the settling fetch is a volume and either a sleep happened or the first fetch showed an attachment. A failure that is not a fetch error is a missing attachment at the first fetch. |
| VolumeManager.DetachFailureSource | ebs/ebs_service.go:323-350 | A failed detach poll names a missing attachment, a missing volume, or a normalised provider error from one of the replies. |
| VolumeManager.CreateSnapshot | ebs/ebs_service.go:401-415 | A create error is normalised and ends the run. A snapshot already past `pending` returns the create reply's id at once, whatever its state. For a pending snapshot the steps are the request and one `waitForSnapshotComplete` poll. There is no outcome iff the poll is still waiting. A pass returns the create reply's id. A failure is the normalised error of the settling DescribeSnapshots reply, `replies[sleeps - 1]`. |
| Scenarios.CreatePollSleepsTwice | ebs/ebs_service.go:86-97 | `creating, creating, available` settles successfully after exactly two sleeps. |
| Scenarios.CreatePollRejectsErrorState | ebs/ebs_service.go:94-96 | A volume that leaves `creating` in the error state fails with that state. |
| Scenarios.DetachSucceedsWhenAttachmentVanishes | ebs/ebs_service.go:342-347 | `detaching`, then no attachment, is a success after one sleep. |
| Scenarios.DetachFailsWithoutAttachmentAtFirst | ebs/ebs_service.go:329-333 | No attachment on the first detach fetch is an error. |
| Scenarios.DetachAcceptsAnyEndState | ebs/ebs_service.go:335-349 | A `busy` attachment ends the detach wait successfully. |
| Scenarios.AttachFailsWhenAttachmentVanishes | ebs/ebs_service.go:183-187 | An attachment that disappears while attaching is an error. |
| Scenarios.SnapshotAcceptsErrorState | ebs/ebs_service.go:389-398 | A snapshot going from `pending` to the error state is reported complete. |
| Scenarios.MatcherExamples | ebs/ebs_service.go:207-238 | Old {A, B} and new {A, B, C, D}: only C matching gives C. C and D both matching gives an ambiguity. Neither matching gives not-found. |
| Scenarios.AllocatorExhausted | ebs/ebs_service.go:282-287 | With every pool path in use the allocator reports exhaustion. |
| Scenarios.CreateEndToEnd | ebs/ebs_service.go:100-137 | 3 GB + 1 byte asks for 4 GB. Polling `creating, creating, available` returns the new id after two sleeps. |
| Scenarios.AttachEndToEnd | ebs/ebs_service.go:290-321 | An instance with no volumes gets `/dev/sdf` requested. Attaching then attached means one sleep. With `{sda}` before and `{sda, sdf}` after, the new 4 GB device `sdf` is returned, after five steps. |

## Left out

- The AWS SDK calls (`CreateVolume`, `DescribeVolumes`, `AttachVolume`, `DetachVolume`, `CreateSnapshot`, `DescribeSnapshots`, `DeleteVolume`, `DeleteSnapshot`) are remote calls. Their replies are inputs: a value or an error.
- `NewEBSService` and `isEC2Instance` (ebs/ebs_service.go:47-79) only query the EC2 metadata service. The instance id and availability zone are inputs.
- `DeleteVolume` and `DeleteSnapshot` (ebs/ebs_service.go:140-146, 417-423) are one remote call followed by `parseAwsError`, which is modelled. In CreateVolume the delete's reply is an input, and it is shown to have no effect.
- `getBlkDevList` and the sysfs reads and `strconv.ParseInt` in `getAttachedDev` are filesystem I/O. A listing is an input, either a device sequence in visiting order or an error. Sector counts are a map, and a device missing from it stands for a failed read or parse.
- `time.Sleep` is counted instead of taken. The Go loops are unbounded, so a run that outlasts the observed fetches ends as `StillWaiting`. Nothing is claimed about a provider that never settles.
- Logging, the snapshot progress shown in the log, and all message text are left out. Errors are tags that carry the values their messages name.
- The `DescribeSnapshots` filters in `waitForSnapshotComplete` are request parameters with no effect on the logic. They are not modelled.
- `waitForSnapshotComplete` indexes `Snapshots[0]` without a guard, and Go would panic on an empty reply. `CreateSnapshot` therefore requires every successful reply to be non-empty (`NonEmptyReplies`).
- MatchLoopAfterFound: assumes that the rest of the listing has no repeats and that every new device in it is readable. A later unreadable new device makes the loop return `DeviceSizeUnreadable` instead (ebs/ebs_service.go:217-224), which UnreadableNewDeviceFails covers.
- GetAttachedDevExact: assumes that no listed device name is empty and that the listing has no repeats. `/sys/block` entries satisfy both. The Go loop uses `""` to mean "no match yet", and the model keeps that sentinel as written.
- GetAttachedDevExact: assumes that every new device's size can be read. When one cannot, UnreadableNewDeviceFails states what remains: neither success nor not-found.

=== FILE: aws_errors.dfy ===
/** The error normaliser `parseAwsError`. */
module AwsErrors {
  import opened Wrappers
  import opened Ec2Types

  /** parseAwsError on a non-nil error: an SDK error is rewritten into a
      described error that keeps its code, message, cause and, for a request
      failure, status and request id; any other error is returned as is. */
  function Normalize(e: EbsError): (r: EbsError)
    ensures !r.Aws?
    ensures e.Aws? ==> r.AwsDescribed? && r.failure == e.failure
    ensures !e.Aws? ==> r == e
  {
    match e
    case Aws(f) => AwsDescribed(f)
    case _ => e
  }

  /** parseAwsError itself, with Go's nil as `None`. */
  function ParseAwsError(err: Option<EbsError>): (r: Option<EbsError>)
    ensures r.None? <==> err.None?
    ensures err.Some? ==> r == Some(Normalize(err.value))
  {
    match err
    case None => None
    case Some(e) => Some(Normalize(e))
  }

  /** Normalising twice is normalising once: CreateSnapshot applies
      parseAwsError to an error the snapshot poller already normalised. */
  lemma ParseAwsErrorIdempotent(err: Option<EbsError>)
    ensures ParseAwsError(ParseAwsError(err)) == ParseAwsError(err)
  {
  }

  /** A provider error keeps its code and message through normalisation, so a
      caller sees them unmodified: a named corollary of Normalize's
      contract for that case, spelled out field by field. */
  lemma NormalizePreservesProviderDetail(e: EbsError)
    requires e.Aws?
    ensures Normalize(e).failure.code == e.failure.code
    ensures Normalize(e).failure.message == e.failure.message
    ensures Normalize(e).failure.request == e.failure.request
  {
  }
}

=== FILE: device_matcher.dfy ===
/** getAttachedDev: find the one block device that appeared since the
    pre-attach listing and has the expected byte size.

    The directory listing is given in the order Go's map iteration visits
    it; the sysfs size reads are a map from device to parsed sector count,
    where a device missing from the map is one whose size file could not be
    read or parsed. */
module DeviceMatcher {
  import opened Wrappers
  import opened Ec2Types
  import opened VolumeSize
  import opened SetFacts

  /** A device the matcher accepts: new since `before`, readable, and of the
      expected byte size. */
  predicate IsMatch(before: set<string>, sectors: map<string, int64>, size: int64, dev: string) {
    dev !in before && dev in sectors && SectorBytes(sectors[dev]) == size
  }

  /** Every matching device among `devs`. */
  function Matches(before: set<string>, sectors: map<string, int64>, size: int64, devs: seq<string>): set<string>
  {
    set d | d in devs && IsMatch(before, sectors, size, d)
  }

  predicate Distinct(devs: seq<string>) {
    forall i, j :: 0 <= i < j < |devs| ==> devs[i] != devs[j]
  }

  /** The loop of getAttachedDev over the devices still to visit; `found` is
      the match seen so far, "" when there is none (Go's sentinel). */
  function MatchLoop(before: set<string>, sectors: map<string, int64>, size: int64,
                     rest: seq<string>, found: string): (r: Result<string, EbsError>)
    ensures r.Success? ==> r.value != ""
    ensures r.Success? ==> r.value == found || (r.value in rest && IsMatch(before, sectors, size, r.value))
    decreases |rest|
  {
    if |rest| == 0 then
      if found == "" then Failure(DeviceNotFound) else Success(found)
    else
      var dev := rest[0];
      if dev in before then MatchLoop(before, sectors, size, rest[1..], found)
      else if dev !in sectors then Failure(DeviceSizeUnreadable(dev))
      else if SectorBytes(sectors[dev]) == size then
        if found != "" then Failure(DeviceAmbiguous(found, dev))
        else MatchLoop(before, sectors, size, rest[1..], dev)
      else MatchLoop(before, sectors, size, rest[1..], found)
  }

  /** getAttachedDev(before, size), with `after` the current /sys/block
      listing or the error listing it gave. Whatever happens, a device
      returned is new since `before` and of exactly the expected size. */
  function GetAttachedDev(before: set<string>, after: Result<seq<string>, EbsError>,
                          sectors: map<string, int64>, size: int64): (r: Result<string, EbsError>)
    ensures after.Failure? ==> r == Failure(after.error)
    ensures r.Success? ==> after.Success? && r.value in after.value && IsMatch(before, sectors, size, r.value)
  {
    match after
    case Failure(e) => Failure(e)
    case Success(devs) => MatchLoop(before, sectors, size, devs, "")
  }

  /** After a match has been found, the loop ends in success when no other
      match remains and in an ambiguity naming it and the next match
      otherwise. */
  lemma {:induction false} MatchLoopAfterFound(before: set<string>, sectors: map<string, int64>, size: int64,
                                               rest: seq<string>, found: string)
    requires found != "" && found !in rest
    requires Distinct(rest)
    requires forall d :: d in rest && d !in before ==> d in sectors
    ensures var r := MatchLoop(before, sectors, size, rest, found);
            && (Matches(before, sectors, size, rest) == {} ==> r == Success(found))
            && (Matches(before, sectors, size, rest) != {} ==>
                  r.Failure? && r.error.DeviceAmbiguous? && r.error.first == found &&
                  r.error.second in Matches(before, sectors, size, rest))
    decreases |rest|
  {
    if |rest| > 0 {
      var dev := rest[0];
      var tail := rest[1..];
      assert forall d :: d in rest <==> d == dev || d in tail;
      if !IsMatch(before, sectors, size, dev) {
        assert Matches(before, sectors, size, rest) == Matches(before, sectors, size, tail);
        MatchLoopAfterFound(before, sectors, size, tail, found);
      } else {
        assert dev in Matches(before, sectors, size, rest);
      }
    }
  }

  /** The matcher proper, before any match is found: with every new device
      readable and named, it returns `d` exactly when `d` is the only
      match, reports not-found exactly when there is none, and reports an
      ambiguity between two different matches exactly when there are two or
      more — whatever order the listing is visited in. */
  lemma {:induction false} MatchLoopExact(before: set<string>, sectors: map<string, int64>, size: int64,
                                          rest: seq<string>)
    requires "" !in rest
    requires Distinct(rest)
    requires forall d :: d in rest && d !in before ==> d in sectors
    ensures var r := MatchLoop(before, sectors, size, rest, "");
            var m := Matches(before, sectors, size, rest);
            && (r.Success? || r == Failure(DeviceNotFound) || r.error.DeviceAmbiguous?)
            && (r.Success? ==> m == {r.value})
            && (r == Failure(DeviceNotFound) ==> m == {})
            && (r.Failure? && r.error.DeviceAmbiguous? ==>
                  r.error.first != r.error.second && r.error.first in m && r.error.second in m)
    decreases |rest|
  {
    if |rest| > 0 {
      var dev := rest[0];
      var tail := rest[1..];
      MatchesUnfold(before, sectors, size, rest);
      assert Distinct(tail);
      if !IsMatch(before, sectors, size, dev) {
        MatchLoopExact(before, sectors, size, tail);
      } else {
        var mt := Matches(before, sectors, size, tail);
        assert dev !in tail;
        MatchLoopAfterFound(before, sectors, size, tail, dev);
        if mt != {} {
          var x :| x in mt;
          TwoMembers(Matches(before, sectors, size, rest), dev, x);
        }
      }
    }
  }

  /** The matches of a non-empty listing: its head if that matches, and the
      matches of the rest. */
  lemma MatchesUnfold(before: set<string>, sectors: map<string, int64>, size: int64, devs: seq<string>)
    requires |devs| > 0
    ensures Matches(before, sectors, size, devs) ==
            (if IsMatch(before, sectors, size, devs[0]) then {devs[0]} else {}) + Matches(before, sectors, size, devs[1..])
  {
    assert forall d :: d in devs <==> d == devs[0] || d in devs[1..];
  }

  /** A set with two different members has at least two elements and is no singleton. */
  lemma TwoMembers(m: set<string>, a: string, b: string)
    requires a in m && b in m && a != b
    ensures |m| >= 2
    ensures forall d :: m != {d}
  {
    SubsetCard({a, b}, m);
  }

  /** getAttachedDev over a listing whose new devices are all readable: it
      never returns a device present before, and its three outcomes
      correspond exactly to one, zero, and several matching new devices. */
  lemma GetAttachedDevExact(before: set<string>, devs: seq<string>, sectors: map<string, int64>, size: int64)
    requires "" !in devs
    requires Distinct(devs)
    requires forall d :: d in devs && d !in before ==> d in sectors
    ensures var r := GetAttachedDev(before, Success(devs), sectors, size);
            var m := Matches(before, sectors, size, devs);
            && (forall d :: r == Success(d) <==> m == {d})
            && (r == Failure(DeviceNotFound) <==> m == {})
            && (r.Failure? && r.error.DeviceAmbiguous? <==> |m| >= 2)
            && (r.Success? || r.error == DeviceNotFound || r.error.DeviceAmbiguous?)
  {
    MatchLoopExact(before, sectors, size, devs);
    var r := GetAttachedDev(before, Success(devs), sectors, size);
    var m := Matches(before, sectors, size, devs);
    if r.Failure? && r.error.DeviceAmbiguous? {
      TwoMembers(m, r.error.first, r.error.second);
    }
  }

  /** A new device whose size cannot be read never lets the matcher
      succeed or report not-found: it ends in that read error or in an
      ambiguity found before reaching it. */
  lemma {:induction false} UnreadableNewDeviceFails(before: set<string>, sectors: map<string, int64>, size: int64,
                                                    rest: seq<string>, found: string, bad: string)
    requires bad in rest && bad !in before && bad !in sectors
    ensures var r := MatchLoop(before, sectors, size, rest, found);
            r.Failure? && (r.error.DeviceSizeUnreadable? || r.error.DeviceAmbiguous?)
    decreases |rest|
  {
    if rest[0] != bad {
      assert bad in rest[1..];
      if rest[0] in before || (rest[0] in sectors && !(SectorBytes(sectors[rest[0]]) == size && found != "")) {
        var next := if rest[0] !in before && SectorBytes(sectors[rest[0]]) == size then rest[0] else found;
        UnreadableNewDeviceFails(before, sectors, size, rest[1..], next, bad);
      }
    }
  }
}

=== FILE: ec2_types.dfy ===
/** The records the EC2 API hands back, the 64-bit integer width the service
    computes in, and the errors the service can return. */
module Ec2Types {
  import opened Wrappers

  /** Go's `int64`. */
  newtype int64 = x: int | InInt64(x)

  predicate InInt64(x: int) {
    -0x8000_0000_0000_0000 <= x < 0x8000_0000_0000_0000
  }

  /** `ec2.VolumeState*`. */
  datatype VolumeState = Creating | Available | InUse | Deleting | Deleted | VolumeErrored

  /** `ec2.VolumeAttachmentState*`. */
  datatype AttachmentState = Attaching | Attached | Detaching | Detached | Busy

  /** `ec2.SnapshotState*`. */
  datatype SnapshotState = Pending | Completed | SnapshotErrored

  datatype Attachment = Attachment(device: string, state: AttachmentState)

  /** An `ec2.Volume` as far as the service reads it; the service only ever
      looks at the first entry of `attachments`. */
  datatype Volume = Volume(volumeId: string, state: VolumeState, attachments: seq<Attachment>)

  datatype Snapshot = Snapshot(snapshotId: string, ownerId: string, state: SnapshotState)

  /** HTTP status and request id carried by an `awserr.RequestFailure`. */
  datatype RequestInfo = RequestInfo(statusCode: int, requestId: string)

  /** The parts of an `awserr.Error`; `request` is present exactly when the
      error is also an `awserr.RequestFailure`. */
  datatype AwsFailure = AwsFailure(code: string, message: string, cause: string, request: Option<RequestInfo>)

  /** Every error value the service produces or passes on. Message text is
      not modelled; each error is a tag with the values the message names. */
  datatype EbsError =
    | Aws(failure: AwsFailure)              // as the SDK returns it
    | AwsDescribed(failure: AwsFailure)     // parseAwsError's rewrite of an SDK error
    | Local(reason: string)                 // any other error, passed through untouched
    | InvalidVolumeType(volumeType: string)
    | VolumeNotFound(volumeId: string)
    | AttachmentMissing(volumeId: string)
    | VolumeEndState(volumeId: string, volumeState: VolumeState)
    | AttachEndState(attachmentState: AttachmentState)
    | CreateFailed(size: int64, snapshotId: string)
    | DeviceSizeUnreadable(device: string)
    | DeviceNotFound
    | DeviceAmbiguous(first: string, second: string)
    | NoFreeDevice(instanceId: string)
}

=== FILE: pollers.dfy ===
/** The four waitFor* pollers of the EBS service, each an instance of the
    shared loop. A volume fetch is the result of one ListSingleVolume call;
    a snapshot fetch is the first snapshot of one DescribeSnapshots reply. */
module Pollers {
  import opened Wrappers
  import opened Ec2Types
  import opened AwsErrors
  import opened Polling

  type VolumeFetch = Result<Volume, EbsError>
  type SnapshotFetch = Result<Snapshot, EbsError>

  predicate IsCreating(f: VolumeFetch) {
    f.Success? && f.value.state == Creating
  }

  predicate HasAttachment(f: VolumeFetch) {
    f.Success? && |f.value.attachments| > 0
  }

  /** The state of the first attachment, the only one the service reads. */
  function FirstAttachmentState(f: VolumeFetch): AttachmentState
    requires HasAttachment(f)
  {
    f.value.attachments[0].state
  }

  predicate InAttachmentState(f: VolumeFetch, s: AttachmentState) {
    HasAttachment(f) && FirstAttachmentState(f) == s
  }

  // ---------------------------------------------------------------- create

  function CreateStep(f: VolumeFetch): Step {
    match f
    case Failure(e) => Stop(Fail(e))
    case Success(v) =>
      if v.state == Creating then Continue
      else if v.state == Available then Stop(Pass)
      else Stop(Fail(VolumeEndState(v.volumeId, v.state)))
  }

  /** waitForVolumeCreating: keeps fetching exactly while the volume is
      `creating`, one sleep per extra fetch; settles on the first fetch that
      is not `creating`; succeeds iff that fetch shows `available`; a fetch
      error is returned as soon as it is seen; any other state fails naming
      the fetched volume and that state. */
  function WaitForVolumeCreating(fetches: seq<VolumeFetch>): (r: Poll)
    ensures r.sleeps <= |fetches|
    ensures forall j :: 0 <= j < r.sleeps ==> IsCreating(fetches[j])
    ensures r.StillWaiting? <==> r.sleeps == |fetches|
    ensures r.Settled? ==> !IsCreating(fetches[r.sleeps])
    ensures r.Settled? ==>
              (r.outcome.Pass? <==> fetches[r.sleeps].Success? && fetches[r.sleeps].value.state == Available)
    ensures r.Settled? && fetches[r.sleeps].Failure? ==> r.outcome == Fail(fetches[r.sleeps].error)
    ensures r.Settled? && fetches[r.sleeps].Success? && fetches[r.sleeps].value.state != Available ==>
              r.outcome == Fail(VolumeEndState(fetches[r.sleeps].value.volumeId, fetches[r.sleeps].value.state))
  {
    RunPoll(CreateStep, fetches)
  }

  // ---------------------------------------------------------------- attach

  function AttachStep(volumeId: string, f: VolumeFetch): Step {
    match f
    case Failure(e) => Stop(Fail(e))
    case Success(v) =>
      if |v.attachments| == 0 then Stop(Fail(AttachmentMissing(volumeId)))
      else if v.attachments[0].state == Attaching then Continue
      else if v.attachments[0].state == Attached then Stop(Pass)
      else Stop(Fail(AttachEndState(v.attachments[0].state)))
  }

  /** waitForVolumeAttaching: every fetch, the first one included, must show
      an attachment; polling continues exactly while it is `attaching`, and
      the run succeeds iff the first attachment state that is not
      `attaching` is `attached`. */
  function WaitForVolumeAttaching(volumeId: string, fetches: seq<VolumeFetch>): (r: Poll)
    ensures r.sleeps <= |fetches|
    ensures forall j :: 0 <= j < r.sleeps ==> InAttachmentState(fetches[j], Attaching)
    ensures r.StillWaiting? <==> r.sleeps == |fetches|
    ensures r.Settled? ==> !InAttachmentState(fetches[r.sleeps], Attaching)
    ensures r.Settled? ==> (r.outcome.Pass? <==> InAttachmentState(fetches[r.sleeps], Attached))
    ensures r.Settled? && fetches[r.sleeps].Failure? ==> r.outcome == Fail(fetches[r.sleeps].error)
    ensures r.Settled? && fetches[r.sleeps].Success? && !HasAttachment(fetches[r.sleeps]) ==>
              r.outcome == Fail(AttachmentMissing(volumeId))
    ensures r.Settled? && HasAttachment(fetches[r.sleeps]) && FirstAttachmentState(fetches[r.sleeps]) != Attached ==>
              r.outcome == Fail(AttachEndState(FirstAttachmentState(fetches[r.sleeps])))
  {
    RunPoll(f => AttachStep(volumeId, f), fetches)
  }

  // ---------------------------------------------------------------- detach

  /** The first fetch of waitForVolumeDetaching: no attachment at all is an error. */
  function DetachFirstStep(volumeId: string, f: VolumeFetch): Step {
    match f
    case Failure(e) => Stop(Fail(e))
    case Success(v) =>
      if |v.attachments| == 0 then Stop(Fail(AttachmentMissing(volumeId)))
      else if v.attachments[0].state == Detaching then Continue
      else Stop(Pass)
  }

  /** Later fetches: an attachment that has gone means the detach finished. */
  function DetachLaterStep(f: VolumeFetch): Step {
    match f
    case Failure(e) => Stop(Fail(e))
    case Success(v) =>
      if |v.attachments| == 0 then Stop(Pass)
      else if v.attachments[0].state == Detaching then Continue
      else Stop(Pass)
  }

  /** waitForVolumeDetaching: polls exactly while the attachment is
      `detaching`. It fails only on a fetch error or when the FIRST fetch
      shows no attachment; an attachment that vanishes later ends the wait
      successfully, and whatever state ends the loop is never checked, so
      every other settling fetch is a success. */
  function WaitForVolumeDetaching(volumeId: string, fetches: seq<VolumeFetch>): (r: Poll)
    ensures r.sleeps <= |fetches|
    ensures forall j :: 0 <= j < r.sleeps ==> InAttachmentState(fetches[j], Detaching)
    ensures r.StillWaiting? <==> r.sleeps == |fetches|
    ensures r.Settled? ==> !InAttachmentState(fetches[r.sleeps], Detaching)
    ensures r.Settled? ==>
              (r.outcome.Pass? <==> fetches[r.sleeps].Success? && (r.sleeps > 0 || HasAttachment(fetches[0])))
    ensures r.Settled? && fetches[r.sleeps].Failure? ==> r.outcome == Fail(fetches[r.sleeps].error)
    ensures r.Settled? && r.outcome.Fail? && fetches[r.sleeps].Success? ==>
              r.sleeps == 0 && r.outcome == Fail(AttachmentMissing(volumeId))
  {
    if |fetches| == 0 then StillWaiting(0)
    else match DetachFirstStep(volumeId, fetches[0])
      case Stop(o) => Settled(o, 0)
      case Continue => AfterSleep(RunPoll(DetachLaterStep, fetches[1..]))
  }

  // -------------------------------------------------------------- snapshot

  function SnapshotStep(f: SnapshotFetch): Step {
    match f
    case Failure(e) => Stop(Fail(Normalize(e)))
    case Success(s) => if s.state == Pending then Continue else Stop(Pass)
  }

  /** waitForSnapshotComplete, given the snapshot record CreateSnapshot
      returned: a snapshot that is not `pending` ends the wait at once with
      success, whatever its state. A pending one is re-fetched after each
      sleep while it stays pending, the sleep coming BEFORE each fetch; a
      fetch error fails (normalised), and any state other than `pending`
      succeeds with no terminal check. */
  function WaitForSnapshotComplete(initial: Snapshot, fetches: seq<SnapshotFetch>): (r: Poll)
    ensures initial.state != Pending ==> r == Settled(Pass, 0)
    ensures initial.state == Pending ==> 1 <= r.sleeps <= |fetches| + 1
    ensures initial.state == Pending ==>
              forall j :: 0 <= j < r.sleeps - 1 ==> fetches[j].Success? && fetches[j].value.state == Pending
    ensures r.StillWaiting? <==> initial.state == Pending && r.sleeps == |fetches| + 1
    ensures r.Settled? && initial.state == Pending ==>
              !(fetches[r.sleeps - 1].Success? && fetches[r.sleeps - 1].value.state == Pending)
    ensures r.Settled? ==>
              (r.outcome.Fail? <==> initial.state == Pending && fetches[r.sleeps - 1].Failure?)
    ensures r.Settled? && r.outcome.Fail? ==> r.outcome.error == Normalize(fetches[r.sleeps - 1].error)
  {
    if initial.state == Completed then Settled(Pass, 0)
    else if initial.state != Pending then Settled(Pass, 0)
    else AfterSleep(RunPoll(SnapshotStep, fetches))
  }
}

=== FILE: polling.dfy ===
/** The reconciliation loop shared by the four pollers: fetch, and while the
    fetched record is transient sleep one second and fetch again.

    The Go loops have no bound, so the model drives them from a finite
    sequence of fetch results. A run either settles on some fetch, or uses
    up the observed fetches while still waiting; sleeps are counted instead
    of taken. */
module Polling {
  import opened Wrappers
  import opened Ec2Types

  /** How a poller reads one fetch result: keep waiting, or stop with an outcome. */
  datatype Step = Continue | Stop(outcome: Outcome<EbsError>)

  /** What a poller did with the observed fetches. */
  datatype Poll =
    | Settled(outcome: Outcome<EbsError>, sleeps: nat)
    | StillWaiting(sleeps: nat)   // every observed fetch said "keep waiting"

  /** One more sleep before everything `p` records. */
  function AfterSleep(p: Poll): (r: Poll)
    ensures r.sleeps == p.sleeps + 1
    ensures r.Settled? <==> p.Settled?
    ensures r.Settled? ==> r.outcome == p.outcome
  {
    match p
    case Settled(o, n) => Settled(o, n + 1)
    case StillWaiting(n) => StillWaiting(n + 1)
  }

  /** `p` is what a loop that fetches `fetches` in order, sleeping after each
      `Continue`, reports: it slept once per fetch that said Continue, and it
      settled exactly on the first fetch that said Stop, with that outcome. */
  ghost predicate PollsAs<F>(classify: F -> Step, fetches: seq<F>, p: Poll) {
    && p.sleeps <= |fetches|
    && (forall j :: 0 <= j < p.sleeps ==> classify(fetches[j]) == Continue)
    && (p.StillWaiting? <==> p.sleeps == |fetches|)
    && (p.Settled? ==> classify(fetches[p.sleeps]) == Stop(p.outcome))
  }

  /** The loop itself: the first fetch happens before any sleep. */
  function RunPoll<F>(classify: F -> Step, fetches: seq<F>): (r: Poll)
    ensures PollsAs(classify, fetches, r)
    decreases |fetches|
  {
    if |fetches| == 0 then StillWaiting(0)
    else match classify(fetches[0])
      case Stop(o) => Settled(o, 0)
      case Continue => AfterSleep(RunPoll(classify, fetches[1..]))
  }

  /** The characterisation pins the run down: two runs that both fit it are
      the same run, so RunPoll is the only loop with that behaviour. */
  lemma PollsAsUnique<F>(classify: F -> Step, fetches: seq<F>, p: Poll, q: Poll)
    requires PollsAs(classify, fetches, p)
    requires PollsAs(classify, fetches, q)
    ensures p == q
  {
  }

  /** Polling stops the moment a fetch says Stop: fetches observed after the
      settling one change nothing. */
  lemma {:induction false} SettledIgnoresLaterFetches<F>(classify: F -> Step, fetches: seq<F>, later: seq<F>)
    requires RunPoll(classify, fetches).Settled?
    ensures RunPoll(classify, fetches + later) == RunPoll(classify, fetches)
  {
    var p := RunPoll(classify, fetches);
    var all := fetches + later;
    assert forall j :: 0 <= j <= p.sleeps ==> all[j] == fetches[j];
    PollsAsUnique(classify, all, p, RunPoll(classify, all));
  }

  /** A run that is still waiting picks up where it left off when more
      fetches are observed. */
  lemma {:induction false} WaitingResumes<F>(classify: F -> Step, fetches: seq<F>, later: seq<F>)
    requires RunPoll(classify, fetches).StillWaiting?
    ensures RunPoll(classify, fetches + later).sleeps == |fetches| + RunPoll(classify, later).sleeps
    ensures RunPoll(classify, fetches + later).Settled? <==> RunPoll(classify, later).Settled?
    ensures RunPoll(classify, later).Settled? ==>
              RunPoll(classify, fetches + later).outcome == RunPoll(classify, later).outcome
    decreases |fetches|
  {
    if |fetches| > 0 {
      assert classify(fetches[0]) == Continue;
      assert (fetches + later)[1..] == fetches[1..] + later;
      WaitingResumes(classify, fetches[1..], later);
    } else {
      assert fetches + later == later;
    }
  }
}

=== FILE: scenarios.dfy ===
/** Concrete runs of the service, each fixing every observation. */
module Scenarios {
  import opened Wrappers
  import opened Ec2Types
  import opened VolumeSize
  import opened Polling
  import opened Pollers
  import opened DeviceMatcher
  import opened SlotAllocator
  import opened VolumeManager

  const VolumeId: string := "vol-1"

  function VolumeIn(state: VolumeState): Volume {
    Volume(VolumeId, state, [])
  }

  function AttachedAs(state: AttachmentState): Volume {
    Volume(VolumeId, InUse, [Attachment("/dev/sdf", state)])
  }

  /** Two transient fetches then the success state: exactly two sleeps. */
  lemma CreatePollSleepsTwice()
    ensures WaitForVolumeCreating([Success(VolumeIn(Creating)), Success(VolumeIn(Creating)),
                                   Success(VolumeIn(Available))]) == Settled(Pass, 2)
  {
  }

  /** A volume that leaves `creating` in any state but `available` fails. */
  lemma CreatePollRejectsErrorState()
    ensures WaitForVolumeCreating([Success(VolumeIn(Creating)), Success(VolumeIn(VolumeErrored))]) ==
            Settled(Fail(VolumeEndState(VolumeId, VolumeErrored)), 1)
  {
  }

  /** An attachment that vanished between polls means the detach finished. */
  lemma DetachSucceedsWhenAttachmentVanishes()
    ensures WaitForVolumeDetaching(VolumeId, [Success(AttachedAs(Detaching)), Success(VolumeIn(Available))]) ==
            Settled(Pass, 1)
  {
  }

  /** ... but no attachment on the first fetch is an error. */
  lemma DetachFailsWithoutAttachmentAtFirst()
    ensures WaitForVolumeDetaching(VolumeId, [Success(VolumeIn(Available))]) ==
            Settled(Fail(AttachmentMissing(VolumeId)), 0)
  {
  }

  /** Detach does not check the state that ends its loop. */
  lemma DetachAcceptsAnyEndState()
    ensures WaitForVolumeDetaching(VolumeId, [Success(AttachedAs(Busy))]) == Settled(Pass, 0)
  {
  }

  /** Attach, unlike detach, fails when the attachment disappears. */
  lemma AttachFailsWhenAttachmentVanishes()
    ensures WaitForVolumeAttaching(VolumeId, [Success(AttachedAs(Attaching)), Success(VolumeIn(Available))]) ==
            Settled(Fail(AttachmentMissing(VolumeId)), 1)
  {
  }

  /** A snapshot that ends in an error state still counts as complete. */
  lemma SnapshotAcceptsErrorState()
    ensures WaitForSnapshotComplete(Snapshot("snap-1", "owner", Pending),
                                    [Success(Snapshot("snap-1", "owner", Pending)),
                                     Success(Snapshot("snap-1", "owner", SnapshotErrored))]) == Settled(Pass, 2)
  {
  }

  const Sectors4GB: int64 := 8388608

  /** Before {A, B}, after {A, B, C, D}: only C of the right size gives C,
      both C and D give an ambiguity, neither gives not-found. */
  lemma MatcherExamples()
    ensures GetAttachedDev({"A", "B"}, Success(["A", "B", "C", "D"]), map["C" := Sectors4GB, "D" := 1], 4 * GB as int64) == Success("C")
    ensures GetAttachedDev({"A", "B"}, Success(["A", "B", "C", "D"]), map["C" := Sectors4GB, "D" := Sectors4GB], 4 * GB as int64) == Failure(DeviceAmbiguous("C", "D"))
    ensures GetAttachedDev({"A", "B"}, Success(["A", "B", "C", "D"]), map["C" := 1, "D" := 1], 4 * GB as int64) == Failure(DeviceNotFound)
  {
  }

  /** With every pool path in use the allocator reports exhaustion. */
  lemma AllocatorExhausted(vols: seq<Volume>)
    requires forall p :: p in Pool ==> p in InstanceDevices(Success(vols)).value
    ensures FindFreeDeviceForAttach("i-1", Success(vols), Pool) == Failure(NoFreeDevice("i-1"))
  {
  }

  /** Create 3 GB + 1 byte from nothing: the provider is asked for 4 GB, the
      poller sees creating, creating, available, and the new id comes back. */
  lemma CreateEndToEnd()
    ensures var run := CreateVolume("us-east-1a", (3 * GB + 1) as int64, "", "", Success(VolumeId),
                                    [Success([VolumeIn(Creating)]), Success([VolumeIn(Creating)]),
                                     Success([VolumeIn(Available)])], None);
            run == Run([RemoteCreateVolume(CreateRequest("us-east-1a", 4, None, None)), Polled(2)],
                       Some(Success(VolumeId)))
  {
    RemainderAddsOne(3, 1);
  }

  /** Attach a 4 GB volume to an instance with no volumes: the first pool
      path is requested, the poller sees attaching then attached, and of
      the listing {sda} before and {sda, sdf} after, the new 4 GB device
      sdf is the answer. */
  lemma AttachEndToEnd()
    ensures var env := AttachEnv(Success([]), Pool, Success({"sda"}), None,
                                 [Success([AttachedAs(Attaching)]), Success([AttachedAs(Attached)])],
                                 Success(["sda", "sdf"]), map["sda" := 1, "sdf" := Sectors4GB]);
            IsPoolOrder(env.poolOrder) &&
            AttachVolume("i-1", VolumeId, 4 * GB as int64, env) ==
              Run([RemoteDescribeInstanceVolumes("i-1"), ListLocalDevices,
                   RemoteAttachVolume(VolumeId, "i-1", "/dev/sdf"), Polled(1), ListLocalDevices],
                  Some(Success("sdf")))
  {
  }
}

=== FILE: set_facts.dfy ===
/** Facts about finite sets shared by the device matcher and the slot
    allocator. */
module SetFacts {
  /** A subset is no larger than the set containing it. */
  lemma SubsetCard<T>(a: set<T>, b: set<T>)
    requires a <= b
    ensures |a| <= |b|
  {
    assert b == a + (b - a);
  }
}

=== FILE: slot_allocator.dfy ===
/** FindFreeDeviceForAttach and its input builder getInstanceDevList: pick a
    device path for a new attachment from a fixed pool, avoiding the paths
    the instance's volumes already use. */
module SlotAllocator {
  import opened Wrappers
  import opened Ec2Types
  import opened AwsErrors
  import opened SetFacts

  /** Device letters the EBS documentation recommends for new volumes. */
  const DeviceLetters: string := "fghijklmnop"

  function SlotPath(letter: char): string {
    "/dev/sd" + [letter]
  }

  /** The candidate pool `/dev/sdf` .. `/dev/sdp`: one path per letter. */
  const Pool: seq<string> := ["/dev/sdf", "/dev/sdg", "/dev/sdh", "/dev/sdi", "/dev/sdj", "/dev/sdk",
                              "/dev/sdl", "/dev/sdm", "/dev/sdn", "/dev/sdo", "/dev/sdp"]

  /** The pool is exactly the slot path of each letter, in letter order. */
  lemma PoolFollowsLetters()
    ensures |Pool| == |DeviceLetters|
    ensures forall i :: 0 <= i < |Pool| ==> Pool[i] == SlotPath(DeviceLetters[i])
  {
  }

  /** The pool holds eleven different paths. */
  lemma PoolHasElevenDistinctPaths()
    ensures |Pool| == 11
    ensures forall i, j :: 0 <= i < j < |Pool| ==> Pool[i] != Pool[j]
  {
  }

  /** Go visits the keys of the candidate map once each, in an order it does
      not fix; `order` is that visiting order. */
  predicate IsPoolOrder(order: seq<string>) {
    && |order| == |Pool|
    && (forall p :: p in order ==> p in Pool)
    && (forall p :: p in Pool ==> p in order)
  }

  /** The paths a visiting order holds. */
  ghost function Elems(s: seq<string>): set<string> {
    set x | x in s
  }

  lemma {:induction false} ElemsCard(s: seq<string>)
    ensures |Elems(s)| <= |s|
  {
    if |s| > 0 {
      assert Elems(s) == {s[0]} + Elems(s[1..]);
      ElemsCard(s[1..]);
    }
  }

  lemma {:induction false} DistinctElemsCard(s: seq<string>)
    requires forall i, j :: 0 <= i < j < |s| ==> s[i] != s[j]
    ensures |Elems(s)| == |s|
  {
    if |s| > 0 {
      assert Elems(s) == {s[0]} + Elems(s[1..]);
      assert s[0] !in Elems(s[1..]);
      DistinctElemsCard(s[1..]);
    }
  }

  /** A repeated entry leaves fewer distinct paths than entries. */
  lemma DuplicateShrinks(s: seq<string>, i: int, j: int)
    requires 0 <= i < j < |s|
    ensures s[i] == s[j] ==> |Elems(s)| < |s|
  {
    if s[i] == s[j] {
      var rest := s[..j] + s[j + 1..];
      forall x | x in s ensures x in rest {
        var k :| 0 <= k < |s| && s[k] == x;
        if k < j { assert rest[k] == x; }
        else if k == j { assert rest[i] == x; }
        else { assert rest[k - 1] == x; }
      }
      SubsetCard(Elems(s), Elems(rest));
      ElemsCard(rest);
    }
  }

  /** Go ranges over the candidate map visiting each key exactly once: any
      order admitted by IsPoolOrder is a permutation of the pool with no
      path repeated, so no candidate is looked at twice or skipped. */
  lemma PoolOrderVisitsEachOnce(order: seq<string>)
    requires IsPoolOrder(order)
    ensures forall i, j :: 0 <= i < j < |order| ==> order[i] != order[j]
  {
    PoolHasElevenDistinctPaths();
    DistinctElemsCard(Pool);
    SubsetCard(Elems(Pool), Elems(order));
    forall i, j | 0 <= i < j < |order| ensures order[i] != order[j] {
      DuplicateShrinks(order, i, j);
    }
  }

  /** getInstanceDevList: the device of the FIRST attachment of each volume
      attached to the instance; volumes without attachments contribute
      nothing, and later attachments are never read. */
  function InstanceDevices(response: Result<seq<Volume>, EbsError>): (r: Result<set<string>, EbsError>)
    ensures response.Failure? ==> r == Failure(Normalize(response.error))
    ensures response.Success? ==> r.Success?
    ensures response.Success? ==>
              forall d :: d in r.value <==>
                exists i :: 0 <= i < |response.value| && |response.value[i].attachments| > 0 &&
                            response.value[i].attachments[0].device == d
  {
    if response.Failure? then Failure(Normalize(response.error))
    else Success(FirstAttachmentDevices(response.value))
  }

  function FirstAttachmentDevices(vols: seq<Volume>): set<string> {
    set i | 0 <= i < |vols| && |vols[i].attachments| > 0 :: vols[i].attachments[0].device
  }

  /** The final loop of FindFreeDeviceForAttach: the first visited candidate
      not in use. */
  function FirstFree(order: seq<string>, inUse: set<string>): (r: Option<string>)
    ensures r.Some? ==> r.value in order && r.value !in inUse
    ensures r.None? <==> forall p :: p in order ==> p in inUse
    decreases |order|
  {
    if |order| == 0 then None
    else if order[0] !in inUse then Some(order[0])
    else FirstFree(order[1..], inUse)
  }

  /** FindFreeDeviceForAttach: a path from the pool that no attached volume
      of the instance uses; paths in use outside the pool play no part. It
      fails exactly when every pool path is in use, and passes on the error
      of the volume listing. */
  function FindFreeDeviceForAttach(instanceId: string, response: Result<seq<Volume>, EbsError>,
                                   order: seq<string>): (r: Result<string, EbsError>)
    requires IsPoolOrder(order)
    ensures response.Failure? ==> r == Failure(Normalize(response.error))
    ensures r.Success? ==> r.value in Pool && r.value !in InstanceDevices(response).value
    ensures response.Success? ==>
              (r.Failure? <==> forall p :: p in Pool ==> p in InstanceDevices(response).value)
    ensures response.Success? && r.Failure? ==> r.error == NoFreeDevice(instanceId)
  {
    var devices := InstanceDevices(response);
    if devices.Failure? then Failure(devices.error)
    else
      var slot := FirstFree(order, devices.value);
      if slot.None? then Failure(NoFreeDevice(instanceId)) else Success(slot.value)
  }

  /** With every pool path but one in use, the allocator returns that one,
      whatever order the pool is visited in. */
  lemma LastFreeSlotIsChosen(instanceId: string, vols: seq<Volume>, order: seq<string>, free: string)
    requires IsPoolOrder(order)
    requires free in Pool
    requires forall p :: p in Pool && p != free ==> p in InstanceDevices(Success(vols)).value
    requires free !in InstanceDevices(Success(vols)).value
    ensures FindFreeDeviceForAttach(instanceId, Success(vols), order) == Success(free)
  {
  }
}

=== FILE: volume_manager.dfy ===
/** The public operations of the EBS service, with the provider's replies,
    the /sys/block listings and the sector counts given as inputs. Each
    operation reports its steps, in order, and its outcome; the outcome is
    `None` when a poller was still waiting at the end of the observed
    replies. The steps are coarse: `ListLocalDevices` is one directory
    listing, with the matcher's reads of each device's size file folded
    into the listing that follows the attach, and a poller's describe calls
    and sleeps are folded into one `Polled` step. */
module VolumeManager {
  import opened Wrappers
  import opened Ec2Types
  import opened AwsErrors
  import opened VolumeSize
  import opened Polling
  import opened Pollers
  import opened DeviceMatcher
  import opened SlotAllocator

  /** The fields CreateVolume fills in `ec2.CreateVolumeInput`. */
  datatype CreateRequest = CreateRequest(zone: string, sizeGB: int64, snapshotId: Option<string>, volumeType: Option<string>)

  /** A step the service takes that the outside world can see. */
  datatype Effect =
    | RemoteCreateVolume(request: CreateRequest)
    | RemoteDeleteVolume(volumeId: string)
    | RemoteDescribeInstanceVolumes(instanceId: string)
    | RemoteAttachVolume(volumeId: string, instanceId: string, device: string)
    | RemoteDetachVolume(volumeId: string, instanceId: string)
    | RemoteCreateSnapshot(volumeId: string, description: string)
    | ListLocalDevices                 // a read of /sys/block
    | Polled(sleeps: nat)              // a poller ran, sleeping this many seconds

  datatype Run<+T> = Run(effects: seq<Effect>, outcome: Option<Result<T, EbsError>>)

  /** The volume types CreateVolume accepts. */
  predicate ValidVolumeType(volumeType: string) {
    volumeType == "gp2" || volumeType == "io1" || volumeType == "standard"
  }

  // ------------------------------------------------------- ListSingleVolume

  /** ListSingleVolume: a DescribeVolumes reply by id must hold exactly one
      volume; a provider error is normalised, and zero or several volumes
      are "cannot find volume". */
  function ListSingleVolume(volumeId: string, reply: Result<seq<Volume>, EbsError>): (r: Result<Volume, EbsError>)
    ensures r.Success? <==> reply.Success? && |reply.value| == 1
    ensures r.Success? ==> r.value == reply.value[0]
    ensures reply.Failure? ==> r == Failure(Normalize(reply.error))
    ensures reply.Success? && |reply.value| != 1 ==> r == Failure(VolumeNotFound(volumeId))
  {
    match reply
    case Failure(e) => Failure(Normalize(e))
    case Success(vols) => if |vols| != 1 then Failure(VolumeNotFound(volumeId)) else Success(vols[0])
  }

  /** The ListSingleVolume results a poller sees for successive replies. */
  function VolumeFetches(volumeId: string, replies: seq<Result<seq<Volume>, EbsError>>): (r: seq<VolumeFetch>)
    ensures |r| == |replies|
    ensures forall i :: 0 <= i < |replies| ==> r[i] == ListSingleVolume(volumeId, replies[i])
  {
    if |replies| == 0 then []
    else [ListSingleVolume(volumeId, replies[0])] + VolumeFetches(volumeId, replies[1..])
  }

  /** A volume fetch fails only with a normalised provider error or with
      "cannot find volume". */
  lemma VolumeFetchErrors(volumeId: string, replies: seq<Result<seq<Volume>, EbsError>>, j: int)
    requires 0 <= j < |replies|
    requires VolumeFetches(volumeId, replies)[j].Failure?
    ensures VolumeFetches(volumeId, replies)[j].error == VolumeNotFound(volumeId) ||
            (replies[j].Failure? && VolumeFetches(volumeId, replies)[j].error == Normalize(replies[j].error))
  {
  }

  // ----------------------------------------------------------- CreateVolume

  /** CreateVolume. An unknown volume type fails before any remote call.
      Otherwise the create request asks for the size in whole GB rounded
      up, with the snapshot and type set only when non-empty. A provider
      error is normalised. Once the volume exists it is polled until no
      longer `creating`; success returns the new volume's id, and failure
      deletes the volume and reports a create failure naming the requested
      size and snapshot, whatever the delete's own outcome was. */
  function CreateVolume(zone: string, size: int64, snapshotId: string, volumeType: string,
                        created: Result<string, EbsError>, replies: seq<Result<seq<Volume>, EbsError>>,
                        deleted: Option<EbsError>): (run: Run<string>)
    ensures volumeType != "" && !ValidVolumeType(volumeType) ==>
              run == Run([], Some(Failure(InvalidVolumeType(volumeType))))
    ensures volumeType == "" || ValidVolumeType(volumeType) ==>
              && 1 <= |run.effects| <= 3 && run.effects[0].RemoteCreateVolume?
              && run.effects[0].request.zone == zone
              && run.effects[0].request.sizeGB as int * GB >= size as int
              && (run.effects[0].request.sizeGB as int - 1) * GB < size as int
              && (run.effects[0].request.snapshotId == if snapshotId == "" then None else Some(snapshotId))
              && (run.effects[0].request.volumeType == if volumeType == "" then None else Some(volumeType))
    ensures (volumeType == "" || ValidVolumeType(volumeType)) && created.Failure? ==>
              run.outcome == Some(Failure(Normalize(created.error))) && |run.effects| == 1
    ensures (volumeType == "" || ValidVolumeType(volumeType)) && created.Success? ==>
              var poll := WaitForVolumeCreating(VolumeFetches(created.value, replies));
              && 2 <= |run.effects| && run.effects[1] == Polled(poll.sleeps)
              && (run.outcome.None? <==> poll.StillWaiting?)
              && (run.outcome == Some(Success(created.value)) <==> poll.Settled? && poll.outcome.Pass?)
              && (|run.effects| == 3 <==> poll.Settled? && poll.outcome.Fail?)
    ensures run.outcome.Some? && run.outcome.value.Success? ==>
              created.Success? && run.outcome.value.value == created.value
    ensures |run.effects| == 3 ==>
              && created.Success? && run.effects[2] == RemoteDeleteVolume(created.value)
              && run.outcome == Some(Failure(CreateFailed(size, snapshotId)))
  {
    var sizeGB := EbsSizeGB(size);
    if volumeType != "" && !ValidVolumeType(volumeType) then
      Run([], Some(Failure(InvalidVolumeType(volumeType))))
    else
      var request := CreateRequest(zone, sizeGB,
                                   if snapshotId == "" then None else Some(snapshotId),
                                   if volumeType == "" then None else Some(volumeType));
      match created
      case Failure(e) => Run([RemoteCreateVolume(request)], Some(Failure(Normalize(e))))
      case Success(volumeId) =>
        var poll := WaitForVolumeCreating(VolumeFetches(volumeId, replies));
        var polled := [RemoteCreateVolume(request), Polled(poll.sleeps)];
        match poll
        case StillWaiting(_) => Run(polled, None)
        case Settled(Pass, _) => Run(polled, Some(Success(volumeId)))
        case Settled(Fail(_), _) =>
          // the delete's own error is only logged, so `deleted` plays no part
          Run(polled + [RemoteDeleteVolume(volumeId)], Some(Failure(CreateFailed(size, snapshotId))))
  }

  /** The compensating delete's outcome never reaches the caller: Go only
      logs the DeleteVolume error (ebs/ebs_service.go:129-132). CreateVolume
      keeps the reply as a parameter so that this can be stated. */
  lemma CreateIgnoresDeleteOutcome(zone: string, size: int64, snapshotId: string, volumeType: string,
                                   created: Result<string, EbsError>, replies: seq<Result<seq<Volume>, EbsError>>,
                                   deleted1: Option<EbsError>, deleted2: Option<EbsError>)
    ensures CreateVolume(zone, size, snapshotId, volumeType, created, replies, deleted1) ==
            CreateVolume(zone, size, snapshotId, volumeType, created, replies, deleted2)
  {
  }

  // ----------------------------------------------------------- AttachVolume

  /** What AttachVolume observes from its collaborators. */
  datatype AttachEnv = AttachEnv(
    instanceVolumes: Result<seq<Volume>, EbsError>,   // DescribeVolumes by attachment.instance-id
    poolOrder: seq<string>,                           // visiting order of the candidate map
    before: Result<set<string>, EbsError>,            // /sys/block before the attach request
    attachError: Option<EbsError>,                    // reply to the attach request
    replies: seq<Result<seq<Volume>, EbsError>>,      // DescribeVolumes replies while polling
    after: Result<seq<string>, EbsError>,             // /sys/block afterwards, in visiting order
    sectors: map<string, int64>)                      // parsed sector counts; absent = unreadable

  /** AttachVolume: allocate a free slot, list the local devices, request
      the attach with that slot, poll until attached, then match the new
      local device. An allocation error is returned as is; so is a failed
      listing, before any attach request; the attach request's error is
      normalised; the poller's error is returned as is; and once the poll
      has seen `attached` the answer is the matcher's: a device that was
      not there before and has exactly the volume's size. */
  function AttachVolume(instanceId: string, volumeId: string, size: int64, env: AttachEnv): (run: Run<string>)
    requires IsPoolOrder(env.poolOrder)
    ensures FindFreeDeviceForAttach(instanceId, env.instanceVolumes, env.poolOrder).Failure? ==>
              run == Run([RemoteDescribeInstanceVolumes(instanceId)],
                         Some(Failure(FindFreeDeviceForAttach(instanceId, env.instanceVolumes, env.poolOrder).error)))
    ensures FindFreeDeviceForAttach(instanceId, env.instanceVolumes, env.poolOrder).Success? ==>
              var slot := FindFreeDeviceForAttach(instanceId, env.instanceVolumes, env.poolOrder).value;
              var listed := [RemoteDescribeInstanceVolumes(instanceId), ListLocalDevices];
              var requested := listed + [RemoteAttachVolume(volumeId, instanceId, slot)];
              var poll := WaitForVolumeAttaching(volumeId, VolumeFetches(volumeId, env.replies));
              var polled := requested + [Polled(poll.sleeps)];
              && (env.before.Failure? ==> run == Run(listed, Some(Failure(env.before.error))))
              && (env.before.Success? && env.attachError.Some? ==>
                    run == Run(requested, Some(Failure(Normalize(env.attachError.value)))))
              && (env.before.Success? && env.attachError.None? && poll.StillWaiting? ==> run == Run(polled, None))
              && (env.before.Success? && env.attachError.None? && poll.Settled? && poll.outcome.Fail? ==>
                    run == Run(polled, Some(Failure(poll.outcome.error))))
              && (env.before.Success? && env.attachError.None? && poll.Settled? && poll.outcome.Pass? ==>
                    run == Run(polled + [ListLocalDevices],
                               Some(GetAttachedDev(env.before.value, env.after, env.sectors, size))))
    ensures run.outcome.Some? && run.outcome.value.Success? ==>
              && env.before.Success? && env.after.Success?
              && run.outcome.value.value in env.after.value
              && IsMatch(env.before.value, env.sectors, size, run.outcome.value.value)
  {
    var slot := FindFreeDeviceForAttach(instanceId, env.instanceVolumes, env.poolOrder);
    if slot.Failure? then Run([RemoteDescribeInstanceVolumes(instanceId)], Some(Failure(slot.error)))
    else
      var listed := [RemoteDescribeInstanceVolumes(instanceId), ListLocalDevices];
      if env.before.Failure? then Run(listed, Some(Failure(env.before.error)))
      else
        var requested := listed + [RemoteAttachVolume(volumeId, instanceId, slot.value)];
        if env.attachError.Some? then Run(requested, Some(Failure(Normalize(env.attachError.value))))
        else
          var poll := WaitForVolumeAttaching(volumeId, VolumeFetches(volumeId, env.replies));
          var polled := requested + [Polled(poll.sleeps)];
          match poll
          case StillWaiting(_) => Run(polled, None)
          case Settled(Fail(e), _) => Run(polled, Some(Failure(e)))
          case Settled(Pass, _) =>
            Run(polled + [ListLocalDevices], Some(GetAttachedDev(env.before.value, env.after, env.sectors, size)))
  }

  /** The attach request is sent at most once, always third, after the
      instance's volumes were described and the local devices listed, and
      always for a pool path no volume of the instance uses. */
  lemma AttachRequestsFreeSlotAfterListing(instanceId: string, volumeId: string, size: int64, env: AttachEnv, i: int)
    requires IsPoolOrder(env.poolOrder)
    requires 0 <= i < |AttachVolume(instanceId, volumeId, size, env).effects|
    requires AttachVolume(instanceId, volumeId, size, env).effects[i].RemoteAttachVolume?
    ensures var run := AttachVolume(instanceId, volumeId, size, env);
            && i == 2 && run.effects[0] == RemoteDescribeInstanceVolumes(instanceId)
            && run.effects[1] == ListLocalDevices && env.before.Success?
            && run.effects[i].volumeId == volumeId && run.effects[i].instanceId == instanceId
            && run.effects[i].device in Pool
            && env.instanceVolumes.Success?
            && run.effects[i].device !in InstanceDevices(env.instanceVolumes).value
  {
  }

  /** The attach reports success only after the poller saw `attached`, and
      a success is reported only after all five steps were taken. */
  lemma AttachSucceedsOnlyAfterAttached(instanceId: string, volumeId: string, size: int64, env: AttachEnv)
    requires IsPoolOrder(env.poolOrder)
    ensures var run := AttachVolume(instanceId, volumeId, size, env);
            var poll := WaitForVolumeAttaching(volumeId, VolumeFetches(volumeId, env.replies));
            run.outcome.Some? && run.outcome.value.Success? ==>
              && FindFreeDeviceForAttach(instanceId, env.instanceVolumes, env.poolOrder).Success?
              && poll.Settled? && poll.outcome.Pass?
              && |run.effects| == 5 && run.effects[2].RemoteAttachVolume? && run.effects[4] == ListLocalDevices
  {
  }

  // ----------------------------------------------------------- DetachVolume

  /** DetachVolume: request the detach, then wait. It fails only when the
      request fails, a fetch fails (a normalised provider error or "cannot
      find volume"), or the first fetch already shows no attachment. */
  function DetachVolume(instanceId: string, volumeId: string, detachError: Option<EbsError>,
                        replies: seq<Result<seq<Volume>, EbsError>>): (run: Run<()>)
    ensures 1 <= |run.effects| && run.effects[0] == RemoteDetachVolume(volumeId, instanceId)
    ensures detachError.Some? ==>
              run == Run([RemoteDetachVolume(volumeId, instanceId)], Some(Failure(Normalize(detachError.value))))
    ensures detachError.None? ==>
              var fetches := VolumeFetches(volumeId, replies);
              var poll := WaitForVolumeDetaching(volumeId, fetches);
              && run.effects == [RemoteDetachVolume(volumeId, instanceId), Polled(poll.sleeps)]
              && (run.outcome.None? <==> poll.StillWaiting?)
              && (poll.Settled? ==>
                    run.outcome == Some(if poll.outcome.Pass? then Success(()) else Failure(poll.outcome.error)))
    ensures detachError.None? && run.outcome.Some? && run.outcome.value.Failure? ==>
              || run.outcome.value.error == AttachmentMissing(volumeId)
              || run.outcome.value.error == VolumeNotFound(volumeId)
              || exists j :: 0 <= j < |replies| && replies[j].Failure? &&
                             run.outcome.value.error == Normalize(replies[j].error)
  {
    var requested := [RemoteDetachVolume(volumeId, instanceId)];
    if detachError.Some? then Run(requested, Some(Failure(Normalize(detachError.value))))
    else
      var fetches := VolumeFetches(volumeId, replies);
      var poll := WaitForVolumeDetaching(volumeId, fetches);
      var polled := requested + [Polled(poll.sleeps)];
      if poll.StillWaiting? then Run(polled, None)
      else if poll.outcome.Pass? then Run(polled, Some(Success(())))
      else
        DetachFailureSource(volumeId, replies, poll);
        Run(polled, Some(Failure(poll.outcome.error)))
  }

  /** Detaching succeeds exactly when the fetch that ends the wait is a
      volume and either the wait slept or that first fetch still showed an
      attachment; a failure that is not a fetch error is the first fetch
      showing no attachment at all. */
  lemma DetachOutcomeByFetch(instanceId: string, volumeId: string, replies: seq<Result<seq<Volume>, EbsError>>)
    ensures var run := DetachVolume(instanceId, volumeId, None, replies);
            var fetches := VolumeFetches(volumeId, replies);
            var poll := WaitForVolumeDetaching(volumeId, fetches);
            && (run.outcome == Some(Success(())) <==>
                  poll.Settled? && fetches[poll.sleeps].Success? && (poll.sleeps > 0 || HasAttachment(fetches[0])))
            && (run.outcome.Some? && run.outcome.value.Failure? && fetches[poll.sleeps].Success? ==>
                  && poll.sleeps == 0 && !HasAttachment(fetches[0])
                  && run.outcome.value.error == AttachmentMissing(volumeId))
  {
  }

  lemma DetachFailureSource(volumeId: string, replies: seq<Result<seq<Volume>, EbsError>>, poll: Poll)
    requires poll == WaitForVolumeDetaching(volumeId, VolumeFetches(volumeId, replies))
    requires poll.Settled? && poll.outcome.Fail?
    ensures || poll.outcome.error == AttachmentMissing(volumeId)
            || poll.outcome.error == VolumeNotFound(volumeId)
            || exists j :: 0 <= j < |replies| && replies[j].Failure? && poll.outcome.error == Normalize(replies[j].error)
  {
  }

  // --------------------------------------------------------- CreateSnapshot

  /** Every successful DescribeSnapshots reply holds a snapshot (the source
      indexes its first element unguarded). */
  predicate NonEmptyReplies(replies: seq<Result<seq<Snapshot>, EbsError>>) {
    forall i :: 0 <= i < |replies| && replies[i].Success? ==> |replies[i].value| > 0
  }

  /** The first snapshot of each DescribeSnapshots reply, or its error. */
  function SnapshotFetches(replies: seq<Result<seq<Snapshot>, EbsError>>): (r: seq<SnapshotFetch>)
    requires NonEmptyReplies(replies)
    ensures |r| == |replies|
    ensures forall i :: 0 <= i < |replies| ==>
              r[i] == if replies[i].Success? then Success(replies[i].value[0]) else Failure(replies[i].error)
  {
    if |replies| == 0 then []
    else
      var first := if replies[0].Success? then Success(replies[0].value[0]) else Failure(replies[0].error);
      [first] + SnapshotFetches(replies[1..])
  }

  /** CreateSnapshot: request the snapshot and wait while it is pending. The
      id returned is the one the create reply carried; a snapshot that is
      already past `pending` is returned at once without polling, even
      when its state is an error. The only failures are the create
      request's error and a DescribeSnapshots error, both normalised. */
  function CreateSnapshot(volumeId: string, description: string, created: Result<Snapshot, EbsError>,
                          replies: seq<Result<seq<Snapshot>, EbsError>>): (run: Run<string>)
    requires NonEmptyReplies(replies)
    ensures 1 <= |run.effects| && run.effects[0] == RemoteCreateSnapshot(volumeId, description)
    ensures created.Failure? ==> run.outcome == Some(Failure(Normalize(created.error)))
    ensures run.outcome.Some? && run.outcome.value.Success? ==>
              created.Success? && run.outcome.value.value == created.value.snapshotId
    ensures created.Failure? ==> run.effects == [RemoteCreateSnapshot(volumeId, description)]
    ensures created.Success? && created.value.state != Pending ==>
              run == Run([RemoteCreateSnapshot(volumeId, description), Polled(0)], Some(Success(created.value.snapshotId)))
    ensures created.Success? && created.value.state == Pending ==>
              var poll := WaitForSnapshotComplete(created.value, SnapshotFetches(replies));
              && run.effects == [RemoteCreateSnapshot(volumeId, description), Polled(poll.sleeps)]
              && (run.outcome.None? <==> poll.StillWaiting?)
              && (poll.Settled? && poll.outcome.Pass? ==> run.outcome == Some(Success(created.value.snapshotId)))
              && (poll.Settled? && poll.outcome.Fail? ==>
                    replies[poll.sleeps - 1].Failure? &&
                    run.outcome == Some(Failure(Normalize(replies[poll.sleeps - 1].error))))
    ensures created.Success? && run.outcome.Some? && run.outcome.value.Failure? ==>
              exists j :: 0 <= j < |replies| && replies[j].Failure? &&
                          run.outcome.value.error == Normalize(replies[j].error)
  {
    var requested := [RemoteCreateSnapshot(volumeId, description)];
    match created
    case Failure(e) => Run(requested, Some(Failure(Normalize(e))))
    case Success(snapshot) =>
      var poll := WaitForSnapshotComplete(snapshot, SnapshotFetches(replies));
      var polled := requested + [Polled(poll.sleeps)];
      match poll
      case StillWaiting(_) => Run(polled, None)
      case Settled(Pass, _) => Run(polled, Some(Success(snapshot.snapshotId)))
      case Settled(Fail(e), n) =>
        assert replies[n - 1].Failure?;
        Run(polled, Some(Failure(Normalize(e))))
  }
}

=== FILE: volume_size.dfy ===
/** Byte/GB conversion for volume creation and the sector-to-byte conversion
    of the device matcher, both in Go's 64-bit integer arithmetic. */
module VolumeSize {
  import opened Ec2Types

  /** The provider's allocation unit, in bytes. */
  const GB: int := 1073741824

  /** Bytes per sector as the kernel reports device sizes. */
  const SectorSize: int := 512

  const TwoTo63: int := 0x8000_0000_0000_0000
  const TwoTo64: int := 0x1_0000_0000_0000_0000

  /** Go's integer `/`, which truncates toward zero (Dafny's rounds down). */
  function TruncDiv(a: int, b: int): (q: int)
    requires b > 0
    ensures a >= 0 ==> 0 <= a - b * q < b
    ensures a < 0 ==> -b < a - b * q <= 0
  {
    if a >= 0 then a / b else -((-a) / b)
  }

  /** Go's integer `%`: its sign follows the dividend. */
  function TruncMod(a: int, b: int): (r: int)
    requires b > 0
    ensures a >= 0 ==> 0 <= r < b
    ensures a < 0 ==> -b < r <= 0
  {
    a - b * TruncDiv(a, b)
  }

  /** `ebsSize` in CreateVolume: `size / GB`, plus one when `size % GB > 0`.
      For every int64 size, negative ones included, this is the least whole
      number of GB that covers the size. */
  function EbsSizeGB(size: int64): (r: int64)
    ensures (r as int) * GB >= size as int
    ensures (r as int - 1) * GB < size as int
  {
    var q := TruncDiv(size as int, GB);
    var n := if TruncMod(size as int, GB) > 0 then q + 1 else q;
    BoundedByQuotient(size as int, n);
    n as int64
  }

  /** A quotient by GB of an int64 is itself far inside the int64 range. */
  lemma BoundedByQuotient(size: int, n: int)
    requires InInt64(size)
    requires n * GB >= size
    requires (n - 1) * GB < size
    ensures -0x2_0000_0000 <= n <= 0x2_0000_0000
  {
  }

  /** Exact multiples of GB map to themselves: 2 GB asks for 2, not 3. */
  lemma ExactMultipleRoundsToItself(k: int)
    requires InInt64(k * GB)
    ensures EbsSizeGB((k * GB) as int64) as int == k
  {
  }

  /** Any non-zero remainder adds exactly one GB. */
  lemma RemainderAddsOne(k: int, rest: int)
    requires 0 < rest < GB
    requires InInt64(k * GB + rest)
    ensures EbsSizeGB((k * GB + rest) as int64) as int == k + 1
  {
  }

  /** Go's int64 multiplication wraps modulo 2^64 into the signed range. */
  function Wrap64(x: int): (r: int64)
    ensures InInt64(x) ==> r as int == x
    ensures (r as int - x) % TwoTo64 == 0
  {
    (((x + TwoTo63) % TwoTo64) - TwoTo63) as int64
  }

  /** `devSize *= 512` in getAttachedDev: the device's byte size as Go
      computes it from its sector count. */
  function SectorBytes(sectors: int64): (r: int64)
    ensures -0x40_0000_0000_0000 <= sectors < 0x40_0000_0000_0000 ==> r as int == sectors as int * SectorSize
    ensures (r as int - sectors as int * SectorSize) % TwoTo64 == 0
  {
    Wrap64(sectors as int * SectorSize)
  }
}

=== FILE: wrappers.dfy ===
/** Failure-carrying datatypes used throughout the model: an optional value,
    a value-or-error, and a pass-or-error. */
module Wrappers {

  datatype Option<+T> = None | Some(value: T)

  /** Go's `(T, error)` return pair: exactly one side is meaningful. */
  datatype Result<+T, +E> = Success(value: T) | Failure(error: E)

  /** Go's bare `error` return: nil is `Pass`. */
  datatype Outcome<+E> = Pass | Fail(error: E)
}
